=== FILE: README.md ===
# Note service model (NordSteel)

A Dafny model of the NordSteel note-taking service. Clients create, read, update and delete short notes. Each note has a numeric id, a title and a content, and titles are unique case-insensitively. The model covers:

- **The note lifecycle in `NoteService`.** The four transitions (create, get, update, delete) and the listing are pure functions over a note table. They yield either a new table or the exception the Java method throws.
- **The table.** `NoteRepository` is modelled as a finite map from primary key to row, plus an auto-increment counter for the IDENTITY column. `save`, `findById`, `findAll`, `existsById`, `deleteById` and `existsByTitleIgnoreCase` are functions or methods over this map.
- **The mapper and data types.** The `Note` entity and the `NoteDTO` transfer object are datatypes. `NoteMapper` becomes field-for-field copy functions.
- **Field validation on `NoteDTO`.** The title and content each have a not-blank rule and a length rule.
- **Message construction in `ExceptionFactory`.**
- **The exception-to-response translation in `GlobalAdviceController`.**

The main properties:

- Every operation keeps the table well formed: each row carries its key as id, and the identity counter stays fresh.
- Every operation keeps titles unique, compared case-insensitively.
- Create absorbs a duplicate title silently, while update rejects one (the asymmetry).
- Each operation's error conditions, in the order the source checks them.
- Each operation changes at most one row, plus the identity counter on a fresh create: create and update touch only the row under the returned id, delete removes only its key, and reads, a create with a taken title and every error path change no row.
- Round trips: create then get, update then get, delete then get. Entity and DTO mapping. Decimal rendering of ids.
- A validation verdict equals an independent statement of what a valid field is.
- The validation handler's map has exactly the failing fields as keys, and for each field the last error put wins.

Modules, one per file:

| file | module | models |
|---|---|---|
| wrappers.dfy | `Wrappers` | nullable values (`Option`) and thrown exceptions (`Result`) |
| text.dfy | `Text` | `String.trim()`, `String.length()` in UTF-16 units, upper-casing for `IgnoreCase`, `%d` rendering |
| notes.dfy | `Notes` | `Note`, `NoteDTO`, `NoteMapper` |
| repository.dfy | `Repository` | `NoteRepository` over the note table, and the table invariant |
| validation.dfy | `Validation` | the `@NotBlank` / `@Size` constraints of `NoteDTO` |
| exceptions.dfy | `Exceptions` | the exception kinds and `ExceptionFactory` |
| service.dfy | `NoteService` | `NoteService` |
| advice.dfy | `GlobalAdvice` | `GlobalAdviceController` |
| lifecycle.dfy | `Lifecycle` | operations chained end to end, with failures rendered by the handlers |

Modelling decisions:

- **Inputs the service never sees with null fields.** `title` and `content` reach the service only after `@Valid` has rejected null values. So the service functions require a transfer object with both fields present (`HasFields`).
- **The id type.** The path id is a Java `long`, modelled as an unbounded `int`. `Math.toIntExact` narrows it to the repository's `int` key. An id outside 32 bits yields `ArithmeticException("integer overflow")`, and no application handler covers that exception.
- **Case-insensitive lookup.** `existsByTitleIgnoreCase` compares `upper(title)` with `upper(argument)`. `Text.Fold` upper-cases ASCII and basic Cyrillic letters. `Lifecycle.ShoppingScenario` relies on the ASCII upper-casing ("Shopping" and "shopping" fold alike); every other property uses only "the folded forms are equal".
- **`@NotBlank`** is modelled the way Hibernate Validator's `NotBlankValidator` checks it: a null check, then `trim().length() > 0`. `trim()` strips characters up to U+0020. `Text.TrimEmptyIffNoVisibleChar` connects this to the plain statement "contains a character above U+0020".
- **`@Size`** counts `String.length()`, that is UTF-16 code units (`Text.Utf16Length`). A null value passes `@Size`.
- **Order of field errors.** Bean Validation reports violations in no specified order. The model lists title errors before content errors, and within a field the not-blank error before the size error. When one field has two errors, the handler keeps whichever comes last, so the message shown for such a field depends on this order. `GlobalAdvice.InvalidBodyShowsLastMessage` states the message shown under the model's order; under the other order a field that is both blank and too short would show the not-blank message instead.
- **`findAll` order.** The table promises no order. `Repository.FindAll` picks the remaining keys in an unspecified order, and its contract speaks only of a one-to-one correspondence with the rows.

## Model

| member | source | states |
|---|---|---|
| NoteService.CreateNote | src/main/java/ru/semavin/nordsteel/service/NoteService.java:31-40 | a title already present (case-insensitively) leaves the table unchanged and echoes the request; otherwise the returned transfer object carries an id whose row is exactly that object and the title is now taken; title and content are always the request's; every other row keeps its key and contents, and no key other than the returned id is added, so at most the row under the returned id changes |
| NoteService.CreatePreservesInvariant | src/main/java/ru/semavin/nordsteel/service/NoteService.java:34-39 | create keeps rows keyed by their own id and titles case-insensitively unique |
| NoteService.CreateFreshAddsOne | src/main/java/ru/semavin/nordsteel/service/NoteService.java:35-39 | a fresh title with no id adds exactly one row under the next identity value holding the requested title and content; all earlier rows are unchanged and the count grows by one |
| NoteService.CreateDuplicateIsNoOp | src/main/java/ru/semavin/nordsteel/service/NoteService.java:34-37 | a taken title keeps the table and its size, and the reply has no id when the request had none |
| NoteService.CreateThenGet | src/main/java/ru/semavin/nordsteel/service/NoteService.java:31-62 | reading back a freshly created note returns what create returned, with the requested title and content |
| NoteService.GetAllNotes | src/main/java/ru/semavin/nordsteel/service/NoteService.java:47-50 | one transfer object per stored row: as many as rows, each the mapping of some row, every row represented, no duplicates on a well-formed table |
| NoteService.GetNoteById | src/main/java/ru/semavin/nordsteel/service/NoteService.java:58-62 | succeeds exactly for a 32-bit id that is stored, returning that row unchanged; an id beyond 32 bits fails with the overflow error before any lookup; a missing one fails with the not-found exception for that id |
| NoteService.ToIntExact | src/main/java/ru/semavin/nordsteel/service/NoteService.java:60 | the id passes through exactly when it fits 32 bits; otherwise the "integer overflow" arithmetic error |
| NoteService.UpdateNote | src/main/java/ru/semavin/nordsteel/service/NoteService.java:72-83 | a taken title fails with the title-exists exception whatever the id; only then overflow, then not-found; success exactly when the title is free and the id is stored, and it keeps the id, sets title and content, and leaves the key set and all other rows unchanged; the identity counter is unchanged |
| NoteService.UpdatePreservesInvariant | src/main/java/ru/semavin/nordsteel/service/NoteService.java:74-82 | a successful update keeps the table well formed and titles unique |
| NoteService.UpdateThenGet | src/main/java/ru/semavin/nordsteel/service/NoteService.java:58-83 | after a successful update the note reads back with the same id and the new title and content |
| NoteService.UpdateToOwnTitleFails | src/main/java/ru/semavin/nordsteel/service/NoteService.java:74-76 | updating a note to its own current title, in any letter case, fails with the title-exists exception |
| NoteService.CreateUpdateAsymmetry | src/main/java/ru/semavin/nordsteel/service/NoteService.java:35-36 | for a taken title, create is a silent no-op while update, for any id, throws the title-exists exception |
| NoteService.DeleteNote | src/main/java/ru/semavin/nordsteel/service/NoteService.java:91-98 | succeeds exactly for a stored 32-bit id and removes exactly that key, keeping every other row; overflow and not-found errors otherwise; the identity counter is unchanged, so a deleted id is never handed out again |
| NoteService.DeletePreservesInvariant | src/main/java/ru/semavin/nordsteel/service/NoteService.java:93-97 | delete keeps the table well formed and titles unique |
| NoteService.DeleteThenGet | src/main/java/ru/semavin/nordsteel/service/NoteService.java:58-97 | after a successful delete, reading the id fails with the not-found exception for it |
| NoteService.UpdateNoteExcludingSelf | src/main/java/ru/semavin/nordsteel/service/NoteService.java:74-81 | corrected update: only a clash with another note fails; success exactly when no other note holds the title and the id is a stored 32-bit id; the row under the id becomes the reply |
| NoteService.ExcludingSelfAcceptsOwnTitle | src/main/java/ru/semavin/nordsteel/service/NoteService.java:74-81 | the corrected update accepts a note's own title, so content-only edits succeed |
| NoteService.ExcludingSelfPreservesInvariant | src/main/java/ru/semavin/nordsteel/service/NoteService.java:74-81 | the corrected update still keeps titles unique |
| Repository.Save | src/main/java/ru/semavin/nordsteel/service/NoteService.java:38 | the returned entity has an id and is stored under it with the given title and content; no id means the next identity value; only that key is added or replaced; well-formedness is kept |
| Repository.FindById | src/main/java/ru/semavin/nordsteel/service/NoteService.java:60 | a row is found exactly when its key exists, and it is that row |
| Repository.ExistsByTitleIgnoreCase | src/main/java/ru/semavin/nordsteel/repositories/NoteRepository.java:7 | an empty table holds no title, and a row with exactly that title is always found |
| Repository.TitleLookupIgnoresCase | src/main/java/ru/semavin/nordsteel/repositories/NoteRepository.java:7 | two titles equal after upper-casing are either both present or both absent |
| Repository.ExistsById | src/main/java/ru/semavin/nordsteel/service/NoteService.java:93 | in a well-formed table the key lookup answers exactly whether some row carries that id, and an existing id lies below the identity counter |
| Repository.DeleteById | src/main/java/ru/semavin/nordsteel/service/NoteService.java:97 | removes exactly that key and keeps every other row |
| Repository.FindAll | src/main/java/ru/semavin/nordsteel/service/NoteService.java:49 | lists each row exactly once, in some order |
| Repository.EmptyInvariant | src/main/java/ru/semavin/nordsteel/models/Note.java:23-25 | the empty table with the identity counter at 1 satisfies the invariant |
| Notes.ToEntity | src/main/java/ru/semavin/nordsteel/mappers/NoteMapper.java:13 | mapping to the entity and back gives the same transfer object |
| Notes.ToDto | src/main/java/ru/semavin/nordsteel/mappers/NoteMapper.java:11 | the transfer object of an entity always has both title and content; `Notes.EntityRoundTrip` shows it loses nothing |
| Notes.ToDtoList | src/main/java/ru/semavin/nordsteel/mappers/NoteMapper.java:15 | the list has the entities' length and maps each entity at the same position |
| Notes.EntityRoundTrip | src/main/java/ru/semavin/nordsteel/mappers/NoteMapper.java:11-13 | mapping an entity out and back in gives the same entity |
| Notes.ToEntityList | src/main/java/ru/semavin/nordsteel/mappers/NoteMapper.java:17 | the list mapping has the same length and maps back element-wise to its input |
| Notes.EntityListRoundTrip | src/main/java/ru/semavin/nordsteel/mappers/NoteMapper.java:15-17 | a list of entities survives mapping out and back in |
| Validation.NotBlank | src/main/java/ru/semavin/nordsteel/dtos/NoteDTO.java:26 | "not null and something left after trim" holds exactly when the value is present and has a character above U+0020 |
| Validation.Violations | src/main/java/ru/semavin/nordsteel/dtos/NoteDTO.java:26-27 | at most two errors, each the field's not-blank or size error with its annotated message; the not-blank error appears exactly for null or whitespace-only values; the size error appears exactly for a present value outside the bounds; the last error carries the size message when the size rule is broken, else the not-blank message; no error exactly when the field is valid |
| Validation.Validate | src/main/java/ru/semavin/nordsteel/dtos/NoteDTO.java:22-35 | no errors exactly when the title (3 to 100) and the content (5 to 500) are both present, visible and of admissible length; every error is one of the four annotated field/message pairs; each field's not-blank error appears exactly when it is null or blank, and its size error exactly when it is present and of inadmissible length |
| Validation.ValidHasFields | src/main/java/ru/semavin/nordsteel/dtos/NoteDTO.java:26-35 | a valid transfer object has both fields |
| Validation.IdUnconstrained | src/main/java/ru/semavin/nordsteel/dtos/NoteDTO.java:22 | the id never affects validation |
| Validation.NullViolatesOnlyNotBlank | src/main/java/ru/semavin/nordsteel/dtos/NoteDTO.java:33-34 | a null field has exactly the not-blank error |
| Validation.BlankTitleViolatesOnlyNotBlank | src/main/java/ru/semavin/nordsteel/dtos/NoteDTO.java:26-27 | a whitespace-only title of length 3 to 100 has exactly the not-blank error |
| Validation.ShortTitleViolatesOnlySize | src/main/java/ru/semavin/nordsteel/dtos/NoteDTO.java:26-27 | a visible title shorter than 3 has exactly the size error |
| Exceptions.NoteNotFound | src/main/java/ru/semavin/nordsteel/util/ExceptionFactory.java:23-27 | a not-found exception whose message is the fixed prefix, the decimal id, then the fixed suffix |
| Exceptions.NoteWithTitleExist | src/main/java/ru/semavin/nordsteel/util/ExceptionFactory.java:34-38 | a title-exists exception whose message is the fixed prefix, the title verbatim, then the fixed suffix |
| Exceptions.NotFoundMentionsId | src/main/java/ru/semavin/nordsteel/util/ExceptionFactory.java:24 | the decimal id occurs in the not-found message |
| Exceptions.NotFoundMessageInjective | src/main/java/ru/semavin/nordsteel/util/ExceptionFactory.java:24 | equal not-found messages come from equal ids |
| Exceptions.TitleExistMessageInjective | src/main/java/ru/semavin/nordsteel/util/ExceptionFactory.java:35 | equal title-exists messages come from equal titles |
| Exceptions.FactoriesDistinct | src/main/java/ru/semavin/nordsteel/util/ExceptionFactory.java:26-37 | the two factories never produce the same exception |
| Text.NatToDecimal | src/main/java/ru/semavin/nordsteel/util/ExceptionFactory.java:24 | `%d` of a non-negative value is a non-empty digit string without a leading zero |
| Text.IntToDecimal | src/main/java/ru/semavin/nordsteel/util/ExceptionFactory.java:24 | `%d` starts with a minus sign exactly for negative values |
| Text.NatDecimalRoundTrip | src/main/java/ru/semavin/nordsteel/util/ExceptionFactory.java:24 | reading the digits back gives the value |
| Text.IntDecimalRoundTrip | src/main/java/ru/semavin/nordsteel/util/ExceptionFactory.java:24 | reading the signed rendering back gives the value |
| Text.IntToDecimalInjective | src/main/java/ru/semavin/nordsteel/util/ExceptionFactory.java:24 | distinct ids render differently |
| Text.TrimStart | src/main/java/ru/semavin/nordsteel/dtos/NoteDTO.java:26 | the result is a suffix starting with a kept character, and everything dropped is trimmable |
| Text.TrimEnd | src/main/java/ru/semavin/nordsteel/dtos/NoteDTO.java:26 | the result is a prefix ending with a kept character, and everything dropped is trimmable |
| Text.Trim | src/main/java/ru/semavin/nordsteel/dtos/NoteDTO.java:26 | the result is a stretch of the input whose dropped leading and trailing characters are all up to U+0020 and which starts and ends with a kept character |
| Text.TrimEmptyIffNoVisibleChar | src/main/java/ru/semavin/nordsteel/dtos/NoteDTO.java:26 | trimming leaves nothing exactly when no character is above U+0020 |
| Text.Utf16Length | src/main/java/ru/semavin/nordsteel/dtos/NoteDTO.java:27 | the UTF-16 length is between the code-point count and twice it, and equals the count when every code point is in the Basic Multilingual Plane |
| Text.Fold | src/main/java/ru/semavin/nordsteel/repositories/NoteRepository.java:7 | the folded title has the same length and upper-cases each character |
| GlobalAdvice.CollectFieldErrors | src/main/java/ru/semavin/nordsteel/controllers/GlobalAdviceController.java:46-49 | every errored field is a key, and each key maps to the message of the last error on that field |
| GlobalAdvice.CollectedKeysAreErrorFields | src/main/java/ru/semavin/nordsteel/controllers/GlobalAdviceController.java:46-49 | the keys are exactly the fields that have errors |
| GlobalAdvice.Handle | src/main/java/ru/semavin/nordsteel/controllers/GlobalAdviceController.java:29-80 | not-found gives 404 with body status 404 and its message; title-exists and constraint violations give 400 with body status 400 and their message; field errors give 400 with the last-wins map; the HTTP status always equals the body's status; an arithmetic error has no handler |
| GlobalAdvice.InvalidBodyNamesInvalidFields | src/main/java/ru/semavin/nordsteel/controllers/GlobalAdviceController.java:44-51 | a rejected request body answers 400 whose keys are exactly the invalid fields among title and content |
| GlobalAdvice.InvalidBodyShowsLastMessage | src/main/java/ru/semavin/nordsteel/controllers/GlobalAdviceController.java:44-51 | in a rejected request body each invalid field maps to the message of the last rule it breaks: the size message when the value is present but of inadmissible length, otherwise the not-blank message |
| Lifecycle.MissingNoteIs404 | src/main/java/ru/semavin/nordsteel/controllers/GlobalAdviceController.java:29-36 | looking up a missing 32-bit id answers 404, body status 404, with the decimal id in the message |
| Lifecycle.TitleClashIs400 | src/main/java/ru/semavin/nordsteel/controllers/GlobalAdviceController.java:73-80 | an update with a taken title answers 400 with the exception's message, not 404 |
| Lifecycle.OverflowIsUnhandled | src/main/java/ru/semavin/nordsteel/service/NoteService.java:60-93 | get and delete with an id beyond 32 bits fail with an exception no application handler covers |
| Lifecycle.ShoppingScenario | src/main/java/ru/semavin/nordsteel/service/NoteService.java:31-98 | on an empty table: "Shopping" gets id 1; "shopping" is absorbed without an id and without changing the table; id 1 reads back as created; deleting it succeeds; reading it again fails with not-found for 1 |

## Left out

- HTTP routing and request binding in `NoteController`, and the browser script: these are framework and DOM plumbing. The handlers are modelled by their translation function, and validation by its verdict.
- Logging and transactions. Every operation is modelled as atomic. A thrown exception returns no table, which stands for the rollback.
- Repository.Save: a non-null id is modelled as a plain upsert under that key, with the identity counter moved past it. What the persistence library actually does with an id supplied on create is library behaviour. The web client never sends one on create.
- Text.Fold: the database's `upper()` is stood in for by ASCII and basic Cyrillic upper-casing. `Lifecycle.ShoppingScenario` relies on the ASCII upper-casing; every other proof relies only on comparing folded forms for equality.
- Text.Utf16Length: only counts code units. Dafny characters are Unicode scalar values, so an unpaired surrogate in a Java string cannot be represented.
- Null title or content reaching the service: the service functions require both fields. Validation rejects null before the service is called, and how the derived query treats null is library behaviour.
- Ids outside the 64-bit range, and id overflow of the IDENTITY column past 32 bits: request binding and the database handle these. Ids in the model are unbounded.
- Exceptions.NoteNotFound: `%d` is rendered with ASCII digits and a leading `-`, i.e. a default locale whose zero digit is `0` is assumed. Under a locale with other digits the message would not contain `Text.IntToDecimal(id)`, so `Exceptions.NotFoundMentionsId` and `Lifecycle.MissingNoteIs404` describe only the ASCII-digit case.
- Responses for exceptions without an application handler, such as the overflow error: these are the web framework's default.
- The order in which Bean Validation reports violations: it is unspecified, and the model fixes one order (see above).

## Findings

| source | as written | input that shows it | evidently intended | confidence | as-written member | corrected member |
|---|---|---|---|---|---|---|
| src/main/java/ru/semavin/nordsteel/service/NoteService.java:74-76 | `updateNote` rejects any title that some stored note holds, including the note being updated | a table with note 1 titled "Shopping"; update id 1 with title "Shopping" and new content. The result is the title-exists exception, so a content-only edit (which the web client sends with the unchanged title) always fails with 400 | only a clash with a different note is rejected | medium, not executed | NoteService.UpdateToOwnTitleFails | NoteService.UpdateNoteExcludingSelf |

=== FILE: advice.dfy ===
/**
 `GlobalAdviceController`: turns each handled exception into an HTTP status and
 a response body. Exceptions it has no handler for are left to the web
 framework's default handling.
 */
module GlobalAdvice {
  import opened Wrappers
  import opened Notes
  import opened Validation
  import opened Exceptions

  const NotFoundStatus := 404
  const BadRequestStatus := 400

  /** The uniform error body: the status repeated, and the exception's message. */
  datatype ResponseException = ResponseException(status: int, message: string)

  datatype Body =
    | ErrorBody(error: ResponseException)
    /** The validation body: field name to message. */
    | FieldMessages(messages: map<string, string>)

  datatype ResponseEntity = ResponseEntity(status: int, body: Body)

  /** `errs[i]` is the last error on field `f`. */
  predicate IsLastFor(errs: seq<FieldError>, i: int, f: string) {
    0 <= i < |errs| && errs[i].field == f && forall j :: i < j < |errs| ==> errs[j].field != f
  }

  /** The map `handleValidationExceptions` fills by putting every field error in turn, so a
      later error on the same field overwrites an earlier one. */
  function CollectFieldErrors(errs: seq<FieldError>): (m: map<string, string>)
    ensures forall i :: 0 <= i < |errs| ==> errs[i].field in m
    ensures forall f :: f in m ==> exists i :: IsLastFor(errs, i, f) && m[f] == errs[i].message
    decreases |errs|
  {
    if errs == [] then map[]
    else
      var init := errs[..|errs| - 1];
      var last := errs[|errs| - 1];
      var m := CollectFieldErrors(init)[last.field := last.message];
      assert forall i :: 0 <= i < |init| ==> init[i] == errs[i];
      assert IsLastFor(errs, |errs| - 1, last.field);
      assert forall f :: f in m && f != last.field ==>
        forall i :: IsLastFor(init, i, f) ==> IsLastFor(errs, i, f);
      m
  }

  /** The response carries one entry per field that has an error, nothing else. */
  lemma CollectedKeysAreErrorFields(errs: seq<FieldError>)
    ensures forall f :: f in CollectFieldErrors(errs) <==> exists i :: 0 <= i < |errs| && errs[i].field == f
  {
  }

  function ErrorResponse(status: int, message: string): ResponseEntity {
    ResponseEntity(status, ErrorBody(ResponseException(status, message)))
  }

  /** The four exception handlers. */
  function Handle(e: AppException): (r: Option<ResponseEntity>)
    ensures r.None? <==> e.ArithmeticException?
    ensures e.NoteNotFoundException? ==>
      r == Some(ResponseEntity(NotFoundStatus, ErrorBody(ResponseException(NotFoundStatus, e.message))))
    ensures e.NoteWithTitleExistException? || e.ConstraintViolationException? ==>
      r == Some(ResponseEntity(BadRequestStatus, ErrorBody(ResponseException(BadRequestStatus, e.message))))
    ensures e.MethodArgumentNotValidException? ==>
      && r.Some? && r.value.status == BadRequestStatus && r.value.body.FieldMessages?
      && (forall i :: 0 <= i < |e.fieldErrors| ==> e.fieldErrors[i].field in r.value.body.messages)
      && (forall f :: f in r.value.body.messages ==>
            exists i :: IsLastFor(e.fieldErrors, i, f) && r.value.body.messages[f] == e.fieldErrors[i].message)
    ensures r.Some? && r.value.body.ErrorBody? ==> r.value.status == r.value.body.error.status
  {
    match e
    case NoteNotFoundException(msg) => Some(ErrorResponse(NotFoundStatus, msg))
    case MethodArgumentNotValidException(errs) =>
      Some(ResponseEntity(BadRequestStatus, FieldMessages(CollectFieldErrors(errs))))
    case ConstraintViolationException(msg) => Some(ErrorResponse(BadRequestStatus, msg))
    case NoteWithTitleExistException(msg) => Some(ErrorResponse(BadRequestStatus, msg))
    case ArithmeticException(_) => None
  }

  /** A rejected request body answers 400 with exactly the invalid fields as keys. */
  lemma InvalidBodyNamesInvalidFields(d: NoteDTO)
    ensures var r := Handle(MethodArgumentNotValidException(Validate(d)));
      && r.Some? && r.value.status == BadRequestStatus && r.value.body.FieldMessages?
      && (TitleField in r.value.body.messages <==> !FieldValid(TitleConstraint, d.title))
      && (ContentField in r.value.body.messages <==> !FieldValid(ContentConstraint, d.content))
      && (forall f :: f in r.value.body.messages ==> f == TitleField || f == ContentField)
  {
    CollectedKeysAreErrorFields(Validate(d));
  }

  /** A rejected request body shows, for each invalid field, the message of the last rule it
      breaks: the size rule when the value is present but of inadmissible length, otherwise
      the not-blank rule. */
  lemma InvalidBodyShowsLastMessage(d: NoteDTO)
    ensures var r := Handle(MethodArgumentNotValidException(Validate(d)));
      && r.Some? && r.value.body.FieldMessages?
      && (TitleField in r.value.body.messages ==>
            r.value.body.messages[TitleField] == ShownMessage(TitleConstraint, d.title))
      && (ContentField in r.value.body.messages ==>
            r.value.body.messages[ContentField] == ShownMessage(ContentConstraint, d.content))
  {
    TitleShowsLastMessage(d);
    ContentShowsLastMessage(d);
  }

  lemma TitleShowsLastMessage(d: NoteDTO)
    ensures var m := CollectFieldErrors(Validate(d));
      TitleField in m ==> m[TitleField] == ShownMessage(TitleConstraint, d.title)
  {
    var t := Violations(TitleConstraint, d.title);
    var c := Violations(ContentConstraint, d.content);
    var errs := Validate(d);
    assert errs == t + c;
    var m := CollectFieldErrors(errs);
    if TitleField in m {
      var i :| IsLastFor(errs, i, TitleField) && m[TitleField] == errs[i].message;
      LastOfFirstField(t, c, TitleField, ContentField, i);
    }
  }

  lemma ContentShowsLastMessage(d: NoteDTO)
    ensures var m := CollectFieldErrors(Validate(d));
      ContentField in m ==> m[ContentField] == ShownMessage(ContentConstraint, d.content)
  {
    var t := Violations(TitleConstraint, d.title);
    var c := Violations(ContentConstraint, d.content);
    var errs := Validate(d);
    assert errs == t + c;
    var m := CollectFieldErrors(errs);
    if ContentField in m {
      var i :| IsLastFor(errs, i, ContentField) && m[ContentField] == errs[i].message;
      LastOfSecondField(t, c, TitleField, ContentField, i);
    }
  }

  /** In two fields' errors side by side, the last error on the first field is the last of
      its own part. */
  lemma LastOfFirstField(t: seq<FieldError>, c: seq<FieldError>, ft: string, fc: string, i: int)
    requires ft != fc
    requires forall e :: e in t ==> e.field == ft
    requires forall e :: e in c ==> e.field == fc
    requires IsLastFor(t + c, i, ft)
    ensures t != [] && i == |t| - 1 && (t + c)[i] == t[|t| - 1]
  {
    forall k | |t| <= k < |t| + |c|
      ensures (t + c)[k].field == fc
    {
      assert (t + c)[k] == c[k - |t|] && c[k - |t|] in c;
    }
    assert i < |t|;
    assert (t + c)[|t| - 1] == t[|t| - 1] && t[|t| - 1] in t;
  }

  /** In two fields' errors side by side, the last error on the second field is the last of
      its own part. */
  lemma LastOfSecondField(t: seq<FieldError>, c: seq<FieldError>, ft: string, fc: string, i: int)
    requires ft != fc
    requires forall e :: e in t ==> e.field == ft
    requires forall e :: e in c ==> e.field == fc
    requires IsLastFor(t + c, i, fc)
    ensures c != [] && i == |t| + |c| - 1 && (t + c)[i] == c[|c| - 1]
  {
    forall k | 0 <= k < |t|
      ensures (t + c)[k].field == ft
    {
      assert (t + c)[k] == t[k] && t[k] in t;
    }
    assert |t| <= i;
    assert (t + c)[|t| + |c| - 1] == c[|c| - 1] && c[|c| - 1] in c;
  }
}

=== FILE: exceptions.dfy ===
/**
 The exceptions the note service and its request validation raise, and
 `ExceptionFactory`, which builds the two domain exceptions with a message that
 names the offending id or title.
 */
module Exceptions {
  import opened Text
  import opened Validation

  datatype AppException =
    /** `NoteNotFoundException`. */
    | NoteNotFoundException(message: string)
    /** `NoteWithTitleExistException`. */
    | NoteWithTitleExistException(message: string)
    /** `ArithmeticException`, raised by `Math.toIntExact` on an id outside 32 bits. */
    | ArithmeticException(message: string)
    /** `MethodArgumentNotValidException`: the field errors of a rejected request body. */
    | MethodArgumentNotValidException(fieldErrors: seq<FieldError>)
    /** `ConstraintViolationException`. */
    | ConstraintViolationException(message: string)

  const NotFoundPrefix := "Заметка с id = "
  const NotFoundSuffix := " не найдена"
  const TitleExistPrefix := "Заметка с title = "
  const TitleExistSuffix := " найдена, уже существует"

  /** The message of the `ArithmeticException` `Math.toIntExact` throws. */
  const IntegerOverflowMessage := "integer overflow"

  /** `ExceptionFactory.noteNotFound(id)`. */
  function NoteNotFound(id: int): (e: AppException)
    ensures e.NoteNotFoundException?
    ensures |e.message| == |NotFoundPrefix| + |IntToDecimal(id)| + |NotFoundSuffix|
    ensures e.message[..|NotFoundPrefix|] == NotFoundPrefix
    ensures e.message[|NotFoundPrefix|..|e.message| - |NotFoundSuffix|] == IntToDecimal(id)
    ensures e.message[|e.message| - |NotFoundSuffix|..] == NotFoundSuffix
  {
    NoteNotFoundException(NotFoundPrefix + IntToDecimal(id) + NotFoundSuffix)
  }

  /** `ExceptionFactory.noteWithTitleExist(title)`. */
  function NoteWithTitleExist(title: string): (e: AppException)
    ensures e.NoteWithTitleExistException?
    ensures |e.message| == |TitleExistPrefix| + |title| + |TitleExistSuffix|
    ensures e.message[..|TitleExistPrefix|] == TitleExistPrefix
    ensures e.message[|TitleExistPrefix|..|e.message| - |TitleExistSuffix|] == title
    ensures e.message[|e.message| - |TitleExistSuffix|..] == TitleExistSuffix
  {
    NoteWithTitleExistException(TitleExistPrefix + title + TitleExistSuffix)
  }

  predicate IsSubstring(needle: string, haystack: string) {
    exists i :: 0 <= i <= |haystack| && needle <= haystack[i..]
  }

  /** The not-found message quotes the id in decimal. */
  lemma NotFoundMentionsId(id: int)
    ensures IsSubstring(IntToDecimal(id), NoteNotFound(id).message)
  {
    var m := NoteNotFound(id).message;
    var i := |NotFoundPrefix|;
    assert IntToDecimal(id) <= m[i..];
  }

  /** The not-found message determines the id it was built for. */
  lemma NotFoundMessageInjective(a: int, b: int)
    requires NoteNotFound(a).message == NoteNotFound(b).message
    ensures a == b
  {
    IntToDecimalInjective(a, b);
  }

  /** The title-exists message determines the title it was built for. */
  lemma TitleExistMessageInjective(a: string, b: string)
    requires NoteWithTitleExist(a).message == NoteWithTitleExist(b).message
    ensures a == b
  {
  }

  /** The two factories never produce the same exception, whatever their arguments. */
  lemma FactoriesDistinct(id: int, title: string)
    ensures NoteNotFound(id) != NoteWithTitleExist(title)
  {
  }
}

=== FILE: lifecycle.dfy ===
/**
 End-to-end behaviour of the note lifecycle: service calls chained on one table,
 with failures rendered by the exception handlers.
 */
module Lifecycle {
  import opened Wrappers
  import opened Text
  import opened Notes
  import opened Repository
  import opened Exceptions
  import opened NoteService
  import opened GlobalAdvice

  /** A lookup of a missing id answers 404, and the body's message names the id. */
  lemma MissingNoteIs404(s: Store, id: int)
    requires FitsInt(id) && id !in s.rows
    ensures GetNoteById(s, id).Err?
    ensures var r := Handle(GetNoteById(s, id).error);
      && r.Some? && r.value.status == NotFoundStatus && r.value.body.ErrorBody?
      && r.value.body.error.status == NotFoundStatus
      && IsSubstring(IntToDecimal(id), r.value.body.error.message)
  {
    NotFoundMentionsId(id);
  }

  /** A title clash on update answers 400, not 404. */
  lemma TitleClashIs400(s: Store, id: int, updated: NoteDTO)
    requires HasFields(updated) && ExistsByTitleIgnoreCase(s, updated.title.value)
    ensures UpdateNote(s, id, updated).Err?
    ensures var r := Handle(UpdateNote(s, id, updated).error);
      r.Some? && r.value.status == BadRequestStatus && r.value.body == ErrorBody(ResponseException(BadRequestStatus, UpdateNote(s, id, updated).error.message))
  {
  }

  /** An id beyond 32 bits reaches no handler of the application. */
  lemma OverflowIsUnhandled(s: Store, id: int)
    requires !FitsInt(id)
    ensures GetNoteById(s, id).Err? && Handle(GetNoteById(s, id).error).None?
    ensures DeleteNote(s, id).Err? && Handle(DeleteNote(s, id).error).None?
  {
  }

  /** Create "Shopping", create "shopping" (absorbed), read it, delete it, read it again. */
  lemma ShoppingScenario()
    ensures var first := NoteDTO(None, Some("Shopping"), Some("buy milk"));
      var second := NoteDTO(None, Some("shopping"), Some("buy eggs"));
      var (s1, out1) := CreateNote(Empty, first);
      var (s2, out2) := CreateNote(s1, second);
      && out1 == NoteDTO(Some(1), Some("Shopping"), Some("buy milk"))
      && s2 == s1 && |s2.rows| == 1 && out2.id.None?
      && GetNoteById(s2, 1) == Ok(out1)
      && DeleteNote(s2, 1).Ok?
      && GetNoteById(DeleteNote(s2, 1).value, 1) == Err(NoteNotFound(1))
  {
  }
}

=== FILE: notes.dfy ===
/**
 The two shapes of a note: the persisted entity and the wire-facing transfer
 object, and the field-for-field mapper between them.
 */
module Notes {
  import opened Wrappers

  /** The persisted entity. Its id is absent until the store assigns one. Title
      and content are never null here: only validated transfer objects reach
      the service, and validation rejects null. */
  datatype Note = Note(id: Option<int>, title: string, content: string)

  /** The request/response body. Every field may be null on the wire. */
  datatype NoteDTO = NoteDTO(id: Option<int>, title: Option<string>, content: Option<string>)

  /** A transfer object whose title and content are both present. */
  predicate HasFields(d: NoteDTO) {
    d.title.Some? && d.content.Some?
  }

  /** `NoteMapper.toDto`. */
  function ToDto(n: Note): (d: NoteDTO)
    ensures HasFields(d)
  {
    NoteDTO(n.id, Some(n.title), Some(n.content))
  }

  /** `NoteMapper.toEntity`: the inverse of `ToDto` on transfer objects with both fields. */
  function ToEntity(d: NoteDTO): (n: Note)
    requires HasFields(d)
    ensures ToDto(n) == d
  {
    Note(d.id, d.title.value, d.content.value)
  }

  /** Mapping an entity out and back in loses nothing. */
  lemma EntityRoundTrip(n: Note)
    ensures ToEntity(ToDto(n)) == n
  {
  }

  /** `NoteMapper.toDtoList`: element-wise `ToDto`, order kept. */
  function ToDtoList(ns: seq<Note>): (ds: seq<NoteDTO>)
    ensures |ds| == |ns|
    ensures forall i :: 0 <= i < |ns| ==> ds[i] == ToDto(ns[i])
  {
    seq(|ns|, i requires 0 <= i < |ns| => ToDto(ns[i]))
  }

  /** `NoteMapper.toEntityList`: element-wise `ToEntity`, order kept. */
  function ToEntityList(ds: seq<NoteDTO>): (ns: seq<Note>)
    requires forall i :: 0 <= i < |ds| ==> HasFields(ds[i])
    ensures |ns| == |ds|
    ensures ToDtoList(ns) == ds
  {
    seq(|ds|, i requires 0 <= i < |ds| => ToEntity(ds[i]))
  }

  /** Mapping a list of entities out and back in loses nothing. */
  lemma EntityListRoundTrip(ns: seq<Note>)
    ensures ToEntityList(ToDtoList(ns)) == ns
  {
  }
}

=== FILE: repository.dfy ===
/**
 The note table behind `NoteRepository`: a finite map from primary key to row,
 plus the next value the IDENTITY column will hand out.
 */
module Repository {
  import opened Wrappers
  import opened Text
  import opened Notes

  datatype Store = Store(rows: map<int, Note>, nextId: int)

  /** A fresh table: no rows, and the identity column starts at 1. */
  const Empty := Store(map[], 1)

  /** Every row carries its own key as id, and every key lies below the identity counter,
      so the counter is always fresh. */
  ghost predicate WellFormed(s: Store) {
    forall k :: k in s.rows ==> s.rows[k].id == Some(k) && k < s.nextId
  }

  /** No two rows hold case-insensitively equal titles. */
  ghost predicate TitlesUnique(s: Store) {
    forall a, b :: a in s.rows && b in s.rows && a != b ==> !SameTitle(s.rows[a].title, s.rows[b].title)
  }

  /** The invariant every service operation keeps. */
  ghost predicate Invariant(s: Store) {
    WellFormed(s) && TitlesUnique(s)
  }

  lemma EmptyInvariant()
    ensures Invariant(Empty)
  {
  }

  /** `existsByTitleIgnoreCase`: some row's upper-cased title equals the upper-cased argument. */
  predicate ExistsByTitleIgnoreCase(s: Store, title: string): (b: bool)
    ensures b ==> |s.rows| > 0
    ensures forall k :: k in s.rows && s.rows[k].title == title ==> b
  {
    exists k :: k in s.rows && SameTitle(s.rows[k].title, title)
  }

  /** The lookup cannot tell apart titles that differ only in letter case. */
  lemma TitleLookupIgnoresCase(s: Store, a: string, b: string)
    requires SameTitle(a, b)
    ensures ExistsByTitleIgnoreCase(s, a) <==> ExistsByTitleIgnoreCase(s, b)
  {
  }

  /** `n` is one of the stored rows. */
  ghost predicate IsRow(s: Store, n: Note) {
    exists k :: k in s.rows && s.rows[k] == n
  }

  /** `existsById`: a lookup by primary key. In a well-formed table it answers exactly
      whether some row carries that id, and an existing id was handed out by the identity
      counter earlier. */
  predicate ExistsById(s: Store, id: int): (b: bool)
    ensures b ==> |s.rows| > 0
    ensures WellFormed(s) ==> (b <==> exists k :: k in s.rows && s.rows[k].id == Some(id))
    ensures WellFormed(s) && b ==> id < s.nextId
  {
    id in s.rows
  }

  /** `findById`. */
  function FindById(s: Store, id: int): (r: Option<Note>)
    ensures r.Some? <==> ExistsById(s, id)
    ensures r.Some? ==> r.value == s.rows[id]
  {
    if id in s.rows then Some(s.rows[id]) else None
  }

  /** `deleteById`: the row under `id` goes, every other row stays. */
  function DeleteById(s: Store, id: int): (s': Store)
    ensures s'.rows.Keys == s.rows.Keys - {id}
    ensures forall k :: k in s'.rows ==> s'.rows[k] == s.rows[k]
    ensures s'.nextId == s.nextId
  {
    Store(s.rows - {id}, s.nextId)
  }

  /** `save`. An entity without id is inserted under the next identity value, which is
      written back into the entity; an entity with an id overwrites (or creates) the row
      under that key, and the identity counter moves past that key. The second component
      is the entity `save` returns. */
  function Save(s: Store, n: Note): (r: (Store, Note))
    ensures r.1.id.Some? && r.1.id.value in r.0.rows && r.0.rows[r.1.id.value] == r.1
    ensures r.1.title == n.title && r.1.content == n.content
    ensures n.id.Some? ==> r.1 == n
    ensures n.id.None? ==> r.1.id == Some(s.nextId)
    ensures r.0.rows.Keys == s.rows.Keys + {r.1.id.value}
    ensures forall k :: k in s.rows && k != r.1.id.value ==> r.0.rows[k] == s.rows[k]
    ensures WellFormed(s) ==> WellFormed(r.0)
  {
    match n.id
    case None =>
      var k := s.nextId;
      var saved := n.(id := Some(k));
      (Store(s.rows[k := saved], k + 1), saved)
    case Some(k) =>
      (Store(s.rows[k := n], if k < s.nextId then s.nextId else k + 1), n)
  }

  /** `findAll`. The table promises no order, so any order is possible: the method picks
      the remaining keys one at a time in an unspecified order. */
  method FindAll(s: Store) returns (notes: seq<Note>)
    ensures |notes| == |s.rows|
    ensures forall i :: 0 <= i < |notes| ==> IsRow(s, notes[i])
    ensures forall k :: k in s.rows ==> s.rows[k] in notes
    ensures WellFormed(s) ==> forall i, j :: 0 <= i < j < |notes| ==> notes[i] != notes[j]
  {
    notes := [];
    ghost var keys: seq<int> := [];
    var remaining := s.rows.Keys;
    ghost var done: set<int> := {};
    while remaining != {}
      invariant remaining !! done && remaining + done == s.rows.Keys
      invariant |notes| == |keys| == |done|
      invariant forall i :: 0 <= i < |keys| ==> keys[i] in done && notes[i] == s.rows[keys[i]]
      invariant forall i, j :: 0 <= i < j < |keys| ==> keys[i] != keys[j]
      invariant forall k :: k in done ==> k in keys
      decreases remaining
    {
      HasElement(remaining);
      var k :| k in remaining;
      notes, keys := notes + [s.rows[k]], keys + [k];
      remaining, done := remaining - {k}, done + {k};
    }
    ListedByKeys(s, notes, keys);
  }

  /** A listing drawn row by row from distinct keys covering the table lists each row once. */
  lemma ListedByKeys(s: Store, notes: seq<Note>, keys: seq<int>)
    requires |notes| == |keys|
    requires forall i :: 0 <= i < |keys| ==> keys[i] in s.rows && notes[i] == s.rows[keys[i]]
    requires forall i, j :: 0 <= i < j < |keys| ==> keys[i] != keys[j]
    requires forall k :: k in s.rows ==> k in keys
    ensures forall i :: 0 <= i < |notes| ==> IsRow(s, notes[i])
    ensures forall k :: k in s.rows ==> s.rows[k] in notes
    ensures WellFormed(s) ==> forall i, j :: 0 <= i < j < |notes| ==> notes[i] != notes[j]
  {
    forall i | 0 <= i < |notes|
      ensures IsRow(s, notes[i])
    {
      var k := keys[i];
      assert k in s.rows && s.rows[k] == notes[i];
    }
    forall k | k in s.rows
      ensures s.rows[k] in notes
    {
      var i :| 0 <= i < |keys| && keys[i] == k;
      assert notes[i] == s.rows[k];
    }
    if WellFormed(s) {
      forall i, j | 0 <= i < j < |notes|
        ensures notes[i] != notes[j]
      {
        assert notes[i].id == Some(keys[i]) && notes[j].id == Some(keys[j]);
      }
    }
  }

  /** A non-empty set has a member to pick. */
  lemma HasElement(xs: set<int>)
    requires xs != {}
    ensures exists x :: x in xs
  {
    if forall x :: x !in xs {
      assert false;
    }
  }
}

=== FILE: service.dfy ===
/**
 `NoteService`: the note lifecycle as transitions on the note table. Each
 operation is one transaction, so it either yields a new table or throws and
 leaves the table as it was; a thrown exception is an `Err` and carries no table.
 */
module NoteService {
  import opened Wrappers
  import opened Text
  import opened Notes
  import opened Repository
  import opened Exceptions

  /** The range of Java's `int`, the key type of the repository. */
  predicate FitsInt(id: int) {
    -0x8000_0000 <= id < 0x8000_0000
  }

  /** `Math.toIntExact`: narrows a `long` id to the repository's `int` key. */
  function ToIntExact(id: int): (r: Result<int, AppException>)
    ensures r.Ok? <==> FitsInt(id)
    ensures r.Ok? ==> r.value == id
    ensures r.Err? ==> r.error == ArithmeticException(IntegerOverflowMessage)
  {
    if FitsInt(id) then Ok(id) else Err(ArithmeticException(IntegerOverflowMessage))
  }

  /** `createNote`. A title already present (case-insensitively) turns the call into a
      silent no-op that echoes the request back; otherwise the note is saved and the
      saved form, carrying the id the store assigned, is returned. */
  function CreateNote(s: Store, note: NoteDTO): (r: (Store, NoteDTO))
    requires HasFields(note)
    ensures r.1.title == note.title && r.1.content == note.content
    ensures ExistsByTitleIgnoreCase(s, note.title.value) ==> r == (s, note)
    ensures !ExistsByTitleIgnoreCase(s, note.title.value) ==>
      && r.1.id.Some?
      && r.1.id.value in r.0.rows
      && r.0.rows[r.1.id.value] == ToEntity(r.1)
      && ExistsByTitleIgnoreCase(r.0, note.title.value)
    ensures note.id.Some? ==> r.1 == note
    ensures forall k :: k in s.rows && (r.1.id.None? || k != r.1.id.value) ==>
      k in r.0.rows && r.0.rows[k] == s.rows[k]
    ensures r.1.id.Some? ==> r.0.rows.Keys <= s.rows.Keys + {r.1.id.value}
  {
    var n := ToEntity(note);
    if ExistsByTitleIgnoreCase(s, n.title) then
      (s, ToDto(n))
    else
      // `save` assigns the generated id to the very entity it is given, which is the one
      // mapped back; an entity that already has an id keeps it.
      var (s', saved) := Save(s, n);
      (s', ToDto(saved))
  }

  /** `getAllNotes`: one transfer object per stored note, in whatever order the table yields
      them; the table itself is only read. */
  method GetAllNotes(s: Store) returns (dtos: seq<NoteDTO>)
    ensures |dtos| == |s.rows|
    ensures forall i :: 0 <= i < |dtos| ==> exists k :: k in s.rows && dtos[i] == ToDto(s.rows[k])
    ensures forall k :: k in s.rows ==> ToDto(s.rows[k]) in dtos
    ensures WellFormed(s) ==> forall i, j :: 0 <= i < j < |dtos| ==> dtos[i] != dtos[j]
  {
    var notes := FindAll(s);
    dtos := ToDtoList(notes);
    forall i | 0 <= i < |dtos|
      ensures exists k :: k in s.rows && dtos[i] == ToDto(s.rows[k])
    {
      var k :| k in s.rows && s.rows[k] == notes[i];
      assert dtos[i] == ToDto(s.rows[k]);
    }
    forall k | k in s.rows
      ensures ToDto(s.rows[k]) in dtos
    {
      var i :| 0 <= i < |notes| && notes[i] == s.rows[k];
      assert dtos[i] == ToDto(s.rows[k]);
    }
    if WellFormed(s) {
      forall i, j | 0 <= i < j < |dtos|
        ensures dtos[i] != dtos[j]
      {
        EntityRoundTrip(notes[i]);
        EntityRoundTrip(notes[j]);
      }
    }
  }

  /** `getNoteById`: the id is narrowed to 32 bits before the table is read. */
  function GetNoteById(s: Store, id: int): (r: Result<NoteDTO, AppException>)
    ensures r.Ok? <==> FitsInt(id) && id in s.rows
    ensures !FitsInt(id) ==> r == Err(ArithmeticException(IntegerOverflowMessage))
    ensures FitsInt(id) && id !in s.rows ==> r == Err(NoteNotFound(id))
    ensures r.Ok? ==> HasFields(r.value) && ToEntity(r.value) == s.rows[id]
  {
    match ToIntExact(id)
    case Err(e) => Err(e)
    case Ok(key) =>
      match FindById(s, key)
      case None => Err(NoteNotFound(id))
      case Some(n) => Ok(ToDto(n))
  }

  /** `updateNote`. The title check comes first and does not exclude the note being
      updated; only then is the id narrowed and looked up. On success the stored note keeps
      its id and takes the new title and content. */
  function UpdateNote(s: Store, id: int, updated: NoteDTO): (r: Result<(Store, NoteDTO), AppException>)
    requires HasFields(updated)
    ensures ExistsByTitleIgnoreCase(s, updated.title.value) ==> r == Err(NoteWithTitleExist(updated.title.value))
    ensures !ExistsByTitleIgnoreCase(s, updated.title.value) && !FitsInt(id) ==>
      r == Err(ArithmeticException(IntegerOverflowMessage))
    ensures !ExistsByTitleIgnoreCase(s, updated.title.value) && FitsInt(id) && id !in s.rows ==>
      r == Err(NoteNotFound(id))
    ensures r.Ok? <==> !ExistsByTitleIgnoreCase(s, updated.title.value) && FitsInt(id) && id in s.rows
    ensures r.Ok? ==> r.value.1.title == updated.title && r.value.1.content == updated.content
    ensures r.Ok? && WellFormed(s) ==>
      && r.value.1.id == Some(id)
      && r.value.0.rows.Keys == s.rows.Keys
      && r.value.0.rows[id] == ToEntity(r.value.1)
      && (forall k :: k in s.rows && k != id ==> r.value.0.rows[k] == s.rows[k])
      && r.value.0.nextId == s.nextId
  {
    var title := updated.title.value;
    if ExistsByTitleIgnoreCase(s, title) then
      Err(NoteWithTitleExist(title))
    else
      match ToIntExact(id)
      case Err(e) => Err(e)
      case Ok(key) =>
        match FindById(s, key)
        case None => Err(NoteNotFound(id))
        case Some(n) =>
          var (s', saved) := Save(s, n.(title := title, content := updated.content.value));
          Ok((s', ToDto(saved)))
  }

  /** `deleteNote`: narrow the id, check it exists, then delete exactly that row. */
  function DeleteNote(s: Store, id: int): (r: Result<Store, AppException>)
    ensures r.Ok? <==> FitsInt(id) && id in s.rows
    ensures !FitsInt(id) ==> r == Err(ArithmeticException(IntegerOverflowMessage))
    ensures FitsInt(id) && id !in s.rows ==> r == Err(NoteNotFound(id))
    ensures r.Ok? ==>
      && r.value.rows.Keys == s.rows.Keys - {id}
      && (forall k :: k in r.value.rows ==> r.value.rows[k] == s.rows[k])
      && r.value.nextId == s.nextId
  {
    match ToIntExact(id)
    case Err(e) => Err(e)
    case Ok(key) =>
      if !ExistsById(s, key) then Err(NoteNotFound(id))
      else Ok(DeleteById(s, key))
  }

  // Every operation keeps the table well formed with case-insensitively unique titles.

  lemma CreatePreservesInvariant(s: Store, note: NoteDTO)
    requires Invariant(s) && HasFields(note)
    ensures Invariant(CreateNote(s, note).0)
  {
  }

  lemma UpdatePreservesInvariant(s: Store, id: int, updated: NoteDTO)
    requires Invariant(s) && HasFields(updated)
    ensures UpdateNote(s, id, updated).Ok? ==> Invariant(UpdateNote(s, id, updated).value.0)
  {
  }

  lemma DeletePreservesInvariant(s: Store, id: int)
    requires Invariant(s)
    ensures DeleteNote(s, id).Ok? ==> Invariant(DeleteNote(s, id).value)
  {
  }

  /** A create with a fresh title and no id adds exactly one row, under the next identity
      value, holding the requested title and content; no other row changes. */
  lemma CreateFreshAddsOne(s: Store, note: NoteDTO)
    requires Invariant(s) && HasFields(note) && note.id.None?
    requires !ExistsByTitleIgnoreCase(s, note.title.value)
    ensures var (s', out) := CreateNote(s, note);
      && s.nextId !in s.rows
      && out == note.(id := Some(s.nextId))
      && s'.rows == s.rows[s.nextId := Note(Some(s.nextId), note.title.value, note.content.value)]
      && |s'.rows| == |s.rows| + 1
  {
  }

  /** A create whose title is taken changes nothing, and hands back no stored id when the
      request had none. */
  lemma CreateDuplicateIsNoOp(s: Store, note: NoteDTO)
    requires HasFields(note) && ExistsByTitleIgnoreCase(s, note.title.value)
    ensures CreateNote(s, note).0 == s
    ensures |CreateNote(s, note).0.rows| == |s.rows|
    ensures note.id.None? ==> CreateNote(s, note).1.id.None?
  {
  }

  /** Reading back a freshly created note yields exactly what the create returned. */
  lemma CreateThenGet(s: Store, note: NoteDTO)
    requires Invariant(s) && HasFields(note) && note.id.None?
    requires !ExistsByTitleIgnoreCase(s, note.title.value)
    requires FitsInt(s.nextId)
    ensures var (s', out) := CreateNote(s, note);
      GetNoteById(s', s.nextId) == Ok(out) && out.title == note.title && out.content == note.content
  {
  }

  /** After a successful update, reading the note back shows the new title and content
      under the same id. */
  lemma UpdateThenGet(s: Store, id: int, updated: NoteDTO)
    requires WellFormed(s) && HasFields(updated)
    requires UpdateNote(s, id, updated).Ok?
    ensures GetNoteById(UpdateNote(s, id, updated).value.0, id) == Ok(NoteDTO(Some(id), updated.title, updated.content))
  {
  }

  /** After a successful delete, the note is gone. */
  lemma DeleteThenGet(s: Store, id: int)
    requires DeleteNote(s, id).Ok?
    ensures GetNoteById(DeleteNote(s, id).value, id) == Err(NoteNotFound(id))
  {
  }

  /** Updating a note to its own current title, in any letter case, fails: the title check
      does not exclude the note being updated. */
  lemma UpdateToOwnTitleFails(s: Store, id: int, updated: NoteDTO)
    requires HasFields(updated) && id in s.rows
    requires SameTitle(s.rows[id].title, updated.title.value)
    ensures UpdateNote(s, id, updated) == Err(NoteWithTitleExist(updated.title.value))
  {
  }

  /** A taken title is absorbed silently by create but rejected by update, for any id. */
  lemma CreateUpdateAsymmetry(s: Store, note: NoteDTO, id: int)
    requires HasFields(note) && ExistsByTitleIgnoreCase(s, note.title.value)
    ensures CreateNote(s, note) == (s, note)
    ensures UpdateNote(s, id, note).Err? && UpdateNote(s, id, note).error.NoteWithTitleExistException?
  {
  }

  // The title check of `updateNote` as evidently intended: only a clash with another note
  // counts, so a note can keep its own title while its content changes.

  /** Some note other than `id` holds the title, case-insensitively. */
  predicate ExistsOtherWithTitle(s: Store, id: int, title: string) {
    exists k :: k in s.rows && k != id && SameTitle(s.rows[k].title, title)
  }

  /** `updateNote` with the title check excluding the note being updated. */
  function UpdateNoteExcludingSelf(s: Store, id: int, updated: NoteDTO): (r: Result<(Store, NoteDTO), AppException>)
    requires HasFields(updated)
    ensures ExistsOtherWithTitle(s, id, updated.title.value) ==> r == Err(NoteWithTitleExist(updated.title.value))
    ensures r.Ok? <==> !ExistsOtherWithTitle(s, id, updated.title.value) && FitsInt(id) && id in s.rows
    ensures r.Ok? && WellFormed(s) ==>
      && r.value.1 == NoteDTO(Some(id), updated.title, updated.content)
      && r.value.0.rows == s.rows[id := ToEntity(r.value.1)]
  {
    var title := updated.title.value;
    if ExistsOtherWithTitle(s, id, title) then
      Err(NoteWithTitleExist(title))
    else
      match ToIntExact(id)
      case Err(e) => Err(e)
      case Ok(key) =>
        match FindById(s, key)
        case None => Err(NoteNotFound(id))
        case Some(n) =>
          var (s', saved) := Save(s, n.(title := title, content := updated.content.value));
          Ok((s', ToDto(saved)))
  }

  /** The corrected update accepts a note's own title, so content-only edits go through. */
  lemma ExcludingSelfAcceptsOwnTitle(s: Store, id: int, updated: NoteDTO)
    requires Invariant(s) && HasFields(updated) && FitsInt(id) && id in s.rows
    requires SameTitle(s.rows[id].title, updated.title.value)
    ensures UpdateNoteExcludingSelf(s, id, updated).Ok?
  {
  }

  /** The corrected update still keeps titles unique. */
  lemma ExcludingSelfPreservesInvariant(s: Store, id: int, updated: NoteDTO)
    requires Invariant(s) && HasFields(updated)
    ensures UpdateNoteExcludingSelf(s, id, updated).Ok? ==> Invariant(UpdateNoteExcludingSelf(s, id, updated).value.0)
  {
  }
}

=== FILE: text.dfy ===
/**
 The string primitives the note service leans on: Java's `String.trim()`,
 `String.length()` (counted in UTF-16 code units), the upper-casing behind
 case-insensitive title lookups, and `%d` decimal rendering of integers.
 */
module Text {

  /** `String.trim()` removes every leading and trailing code point up to U+0020. */
  predicate IsTrimmable(c: char) {
    c <= ' '
  }

  /** True iff `s` holds at least one character `trim()` would keep. */
  predicate HasVisibleChar(s: string) {
    exists i :: 0 <= i < |s| && !IsTrimmable(s[i])
  }

  /** Drops the leading trimmable characters. */
  function TrimStart(s: string): (r: string)
    ensures |r| <= |s| && r == s[|s| - |r|..]
    ensures forall i :: 0 <= i < |s| - |r| ==> IsTrimmable(s[i])
    ensures r != [] ==> !IsTrimmable(r[0])
    decreases |s|
  {
    if |s| > 0 && IsTrimmable(s[0]) then TrimStart(s[1..]) else s
  }

  /** Drops the trailing trimmable characters. */
  function TrimEnd(s: string): (r: string)
    ensures |r| <= |s| && r == s[..|r|]
    ensures forall i :: |r| <= i < |s| ==> IsTrimmable(s[i])
    ensures r != [] ==> !IsTrimmable(r[|r| - 1])
    decreases |s|
  {
    if |s| > 0 && IsTrimmable(s[|s| - 1]) then TrimEnd(s[..|s| - 1]) else s
  }

  /** `String.trim()`: the stretch of `s` left after dropping the leading and trailing
      characters up to U+0020 (a prefix of what `TrimStart` leaves, itself a suffix of `s`);
      whatever remains starts and ends with a kept character. */
  function Trim(s: string): (r: string)
    ensures |r| <= |TrimStart(s)| <= |s|
    ensures r == TrimStart(s)[..|r|]
    ensures forall i :: 0 <= i < |s| - |TrimStart(s)| ==> IsTrimmable(s[i])
    ensures forall i :: |s| - |TrimStart(s)| + |r| <= i < |s| ==> IsTrimmable(s[i])
    ensures r != [] ==> !IsTrimmable(r[0]) && !IsTrimmable(r[|r| - 1])
  {
    TrimEnd(TrimStart(s))
  }

  /** Trimming leaves nothing exactly when every character is trimmable. */
  lemma TrimEmptyIffNoVisibleChar(s: string)
    ensures Trim(s) == [] <==> !HasVisibleChar(s)
  {
  }

  /** The number of UTF-16 code units Java's `String.length()` reports for `s`:
      a code point above U+FFFF takes a surrogate pair. */
  function Utf16Length(s: string): (n: nat)
    ensures |s| <= n <= 2 * |s|
    ensures (forall i :: 0 <= i < |s| ==> s[i] as int < 0x1_0000) ==> n == |s|
    decreases |s|
  {
    if s == [] then 0
    else Utf16Length(s[..|s| - 1]) + (if s[|s| - 1] as int < 0x1_0000 then 1 else 2)
  }

  /** Upper-cases ASCII and basic Cyrillic letters (including ё); every other character
      is left alone. */
  function UpperChar(c: char): (u: char)
    ensures ('a' <= c <= 'z') ==> u as int == c as int - 32
    ensures !('a' <= c <= 'z') && !('а' <= c <= 'џ') ==> u == c
  {
    if 'a' <= c <= 'z' then (c as int - 32) as char
    else if 'а' <= c <= 'я' then (c as int - 0x20) as char
    else if 'ѐ' <= c <= 'џ' then (c as int - 0x50) as char
    else c
  }

  /** The key under which titles are compared case-insensitively: `upper(title)`. */
  function Fold(s: string): (f: string)
    ensures |f| == |s|
    ensures forall i :: 0 <= i < |s| ==> f[i] == UpperChar(s[i])
  {
    seq(|s|, i requires 0 <= i < |s| => UpperChar(s[i]))
  }

  /** Two titles name the same note when their folded forms coincide. */
  predicate SameTitle(a: string, b: string) {
    Fold(a) == Fold(b)
  }

  predicate IsDigit(c: char) {
    '0' <= c <= '9'
  }

  predicate AllDigits(s: string) {
    forall i :: 0 <= i < |s| ==> IsDigit(s[i])
  }

  function DigitChar(d: nat): (c: char)
    requires d < 10
    ensures IsDigit(c) && c as int - '0' as int == d
  {
    (d + '0' as int) as char
  }

  /** `%d` of a non-negative value: most significant digit first, no leading zeros. */
  function NatToDecimal(n: nat): (r: string)
    ensures |r| >= 1 && AllDigits(r)
    ensures r[0] == '0' ==> n == 0
    decreases n
  {
    if n < 10 then [DigitChar(n)] else NatToDecimal(n / 10) + [DigitChar(n % 10)]
  }

  /** `%d` of any value: a minus sign, then the digits of the magnitude. */
  function IntToDecimal(n: int): (r: string)
    ensures |r| >= 1
    ensures n < 0 <==> r[0] == '-'
  {
    if n < 0 then "-" + NatToDecimal(-n) else NatToDecimal(n)
  }

  /** Reads back a digit string. */
  function DecimalToNat(s: string): nat
    requires AllDigits(s)
    decreases |s|
  {
    if s == [] then 0 else DecimalToNat(s[..|s| - 1]) * 10 + (s[|s| - 1] as int - '0' as int)
  }

  /** Reads back an optionally signed digit string. */
  function DecimalToInt(s: string): int
    requires |s| >= 1
    requires AllDigits(s) || (s[0] == '-' && AllDigits(s[1..]))
  {
    if s[0] == '-' then -(DecimalToNat(s[1..]) as int) else DecimalToNat(s)
  }

  lemma {:induction false} NatDecimalRoundTrip(n: nat)
    ensures DecimalToNat(NatToDecimal(n)) == n
    decreases n
  {
    if n >= 10 {
      NatDecimalRoundTrip(n / 10);
      var r := NatToDecimal(n);
      assert r[..|r| - 1] == NatToDecimal(n / 10);
    }
  }

  /** Reading back the decimal rendering of any integer gives that integer. */
  lemma IntDecimalRoundTrip(n: int)
    ensures var r := IntToDecimal(n);
      (AllDigits(r) || (r[0] == '-' && AllDigits(r[1..]))) && DecimalToInt(r) == n
  {
    if n < 0 {
      NatDecimalRoundTrip(-n);
      assert IntToDecimal(n)[1..] == NatToDecimal(-n);
    } else {
      NatDecimalRoundTrip(n);
    }
  }

  /** Distinct integers render to distinct decimal strings. */
  lemma IntToDecimalInjective(a: int, b: int)
    requires IntToDecimal(a) == IntToDecimal(b)
    ensures a == b
  {
    IntDecimalRoundTrip(a);
    IntDecimalRoundTrip(b);
  }
}

=== FILE: validation.dfy ===
/**
 The field constraints on a note's transfer object: title and content must each
 be non-blank (`@NotBlank`) and of bounded length (`@Size`); the id carries no
 constraint. Validation reports one field error per violated rule.
 */
module Validation {
  import opened Wrappers
  import opened Text
  import opened Notes

  /** One violated rule: the field it is on and the rule's message. */
  datatype FieldError = FieldError(field: string, message: string)

  /** The `@NotBlank` and `@Size(min, max)` pair on one string field. */
  datatype Constraint = Constraint(field: string, min: nat, max: nat, blankMessage: string, sizeMessage: string)

  const TitleField := "title"
  const ContentField := "content"

  const TitleBlankMessage := "Заголовок не может быть пустым"
  const TitleSizeMessage := "Заголовок должен содержать от 3 до 100 символов"
  const ContentBlankMessage := "Описание не может быть пустым"
  const ContentSizeMessage := "Описание должно содержать от 5 до 500 символов"

  const TitleConstraint := Constraint(TitleField, 3, 100, TitleBlankMessage, TitleSizeMessage)
  const ContentConstraint := Constraint(ContentField, 5, 500, ContentBlankMessage, ContentSizeMessage)

  /** `@NotBlank` as Hibernate Validator's `NotBlankValidator` checks it: a null check, then
      `trim().length() > 0`. */
  predicate NotBlank(v: Option<string>): (b: bool)
    ensures b <==> v.Some? && HasVisibleChar(v.value)
  {
    match v
    case None => false
    case Some(s) => TrimEmptyIffNoVisibleChar(s); |Trim(s)| > 0
  }

  /** `@Size`: null passes; otherwise `length()` lies within the bounds. */
  predicate SizeWithin(v: Option<string>, min: nat, max: nat) {
    v.None? || min <= Utf16Length(v.value) <= max
  }

  /** What a valid field is, stated directly: present, holding a visible character, and of
      length within the bounds. */
  predicate FieldValid(c: Constraint, v: Option<string>) {
    v.Some? && HasVisibleChar(v.value) && c.min <= Utf16Length(v.value) <= c.max
  }

  /** The message of the last rule a field breaks, which is the one a map keyed by field
      keeps: the size message when the value is present but of inadmissible length,
      otherwise the not-blank message. */
  function ShownMessage(c: Constraint, v: Option<string>): string {
    if v.Some? && !(c.min <= Utf16Length(v.value) <= c.max) then c.sizeMessage else c.blankMessage
  }

  /** The violations of one field: the not-blank rule first, then the size rule. */
  function Violations(c: Constraint, v: Option<string>): (errs: seq<FieldError>)
    ensures |errs| <= 2
    ensures forall e :: e in errs ==> e.field == c.field
    ensures (v.None? || !HasVisibleChar(v.value)) ==> FieldError(c.field, c.blankMessage) in errs
    ensures c.blankMessage != c.sizeMessage ==>
      (FieldError(c.field, c.blankMessage) in errs <==> v.None? || !HasVisibleChar(v.value))
    ensures c.blankMessage != c.sizeMessage ==>
      (FieldError(c.field, c.sizeMessage) in errs <==> v.Some? && !(c.min <= Utf16Length(v.value) <= c.max))
    ensures errs == [] <==> FieldValid(c, v)
    ensures forall e :: e in errs ==>
      e == FieldError(c.field, c.blankMessage) || e == FieldError(c.field, c.sizeMessage)
    ensures errs != [] ==> errs[|errs| - 1].message == ShownMessage(c, v)
  {
    (if NotBlank(v) then [] else [FieldError(c.field, c.blankMessage)])
    + (if SizeWithin(v, c.min, c.max) then [] else [FieldError(c.field, c.sizeMessage)])
  }

  /** Every violation of a transfer object, title first. */
  function Validate(d: NoteDTO): (errs: seq<FieldError>)
    ensures errs == [] <==> FieldValid(TitleConstraint, d.title) && FieldValid(ContentConstraint, d.content)
    ensures forall i :: 0 <= i < |errs| ==> errs[i].field == TitleField || errs[i].field == ContentField
    ensures (exists i :: 0 <= i < |errs| && errs[i].field == TitleField) <==> !FieldValid(TitleConstraint, d.title)
    ensures (exists i :: 0 <= i < |errs| && errs[i].field == ContentField) <==> !FieldValid(ContentConstraint, d.content)
    ensures forall e :: e in errs ==>
      || e == FieldError(TitleField, TitleBlankMessage) || e == FieldError(TitleField, TitleSizeMessage)
      || e == FieldError(ContentField, ContentBlankMessage) || e == FieldError(ContentField, ContentSizeMessage)
    ensures FieldError(TitleField, TitleBlankMessage) in errs <==> !NotBlank(d.title)
    ensures FieldError(TitleField, TitleSizeMessage) in errs <==>
      d.title.Some? && !(TitleConstraint.min <= Utf16Length(d.title.value) <= TitleConstraint.max)
    ensures FieldError(ContentField, ContentBlankMessage) in errs <==> !NotBlank(d.content)
    ensures FieldError(ContentField, ContentSizeMessage) in errs <==>
      d.content.Some? && !(ContentConstraint.min <= Utf16Length(d.content.value) <= ContentConstraint.max)
  {
    var t := Violations(TitleConstraint, d.title);
    var c := Violations(ContentConstraint, d.content);
    ConcatFields(t, c, TitleField, ContentField);
    t + c
  }

  /** The errors of two fields side by side: each field has an error in the whole exactly
      when its own part is non-empty. */
  lemma ConcatFields(t: seq<FieldError>, c: seq<FieldError>, ft: string, fc: string)
    requires ft != fc
    requires forall i :: 0 <= i < |t| ==> t[i].field == ft
    requires forall i :: 0 <= i < |c| ==> c[i].field == fc
    ensures forall i :: 0 <= i < |t + c| ==> (t + c)[i].field == ft || (t + c)[i].field == fc
    ensures (exists i :: 0 <= i < |t + c| && (t + c)[i].field == ft) <==> t != []
    ensures (exists i :: 0 <= i < |t + c| && (t + c)[i].field == fc) <==> c != []
  {
    if t != [] {
      assert (t + c)[0].field == ft;
    }
    if c != [] {
      assert (t + c)[|t|].field == fc;
    }
  }

  /** A transfer object that passes validation carries both fields. */
  lemma ValidHasFields(d: NoteDTO)
    ensures Validate(d) == [] ==> HasFields(d)
  {
  }

  /** The id is unconstrained: replacing it never changes the verdict. */
  lemma IdUnconstrained(d: NoteDTO, id: Option<int>)
    ensures Validate(d.(id := id)) == Validate(d)
  {
  }

  /** A null field breaks only the not-blank rule: `@Size` lets null through. */
  lemma NullViolatesOnlyNotBlank(c: Constraint)
    ensures Violations(c, None) == [FieldError(c.field, c.blankMessage)]
  {
  }

  /** A whitespace-only title of admissible length breaks only the not-blank rule. */
  lemma BlankTitleViolatesOnlyNotBlank(t: string)
    requires !HasVisibleChar(t) && 3 <= Utf16Length(t) <= 100
    ensures Violations(TitleConstraint, Some(t)) == [FieldError(TitleField, TitleBlankMessage)]
  {
  }

  /** A visible but too short title breaks only the size rule. */
  lemma ShortTitleViolatesOnlySize(t: string)
    requires HasVisibleChar(t) && Utf16Length(t) < 3
    ensures Violations(TitleConstraint, Some(t)) == [FieldError(TitleField, TitleSizeMessage)]
  {
  }
}

=== FILE: wrappers.dfy ===
/** Nullable values and fallible results, the two shapes every layer of the note service speaks. */
module Wrappers {

  /** A Java reference that may be null: `None` stands for null. */
  datatype Option<+T> = None | Some(value: T)

  /** The outcome of a service call: a value, or the exception it throws. */
  datatype Result<+T, +E> = Ok(value: T) | Err(error: E)
}
